=== FILE: README.md ===
# Translator message resolution, in Dafny

This project models the message-resolution core of the PHP class
`B4nan\Localization\Translator` (`src/Localization/Translator.php`) and
proves properties of it. The translator holds a dictionary and a current
language code. The dictionary maps each language code to a display name,
the language's translations and its plural rule.

The model is functional. `Translator(lang, dictionary)` is an immutable
record, and `SetLang` returns a new one. The modules follow the stages of
`translate`:

- `PhpStrings` (`php_strings.dfy`) holds the PHP string conversions the
  translator relies on:
  - the decimal text of an integer;
  - integer literals as `is_numeric` and `(int)` read them;
  - the looser numeric grammar `is_numeric` accepts;
  - `explode` on a one-character separator, with its `implode` round trip.
- `Sprintf` (`sprintf.dfy`) holds `vsprintf` restricted to `%s`
  directives, and the final `str_replace('%s', '', …)` cleanup.
- `Plural` (`plural.dfy`) holds `getForm`. The rule `"1|4"` is exploded
  into thresholds, and a count selects the form one past the last threshold
  it reaches.
- `Dictionary` (`dictionary.dfy`) holds the dictionary data, the
  trailing-character table and lookup with the trailing-punctuation
  fallback.
- `Translator` (`translator.dfy`) holds the rest of the translator:
  - message normalisation;
  - plural selection;
  - the two substitution passes;
  - `translate` itself;
  - `setLang`, `getLang` and `getSupportedLanguages`.
- `TranslatorExamples` (`translator_examples.dfy`) holds worked calls of
  `translate` on a small Czech dictionary. Each is stated for any translator
  whose current language holds the entries the call meets.

The count and the arguments after it are modelled as
`Args = NoCount | Count(n, rest)`. `NoCount` is a call with the message
alone; `Count(n, rest)` passes a count and possibly more. So `func_num_args() > 1`
holds exactly for `Count`. The arguments the second `vsprintf` pass sees are
`[IntP(n)] + rest`.

The trailing-character loop (lines 128-132) visits every character of the
table, but it rewrites the message at most once. After a rewrite, the
message ends in the character that matched, and the table's characters are
pairwise distinct, so no later pass of the loop can match again.
`Dictionary.TrailingLoopRewritesOnce` proves that the loop as written equals
a single rewrite keyed on the message's last character.

## Model

| member | source | states |
|---|---|---|
| Dictionary.TrailingLoopRewritesOnce | src/Localization/Translator.php:128-132 | Running the fallback loop over any list of distinct characters rewrites at most once. The result is the translation of the key without its last character, with that character put back, when the last character is in the list and the shortened key has an entry. Otherwise the key is returned unchanged. |
| Dictionary.TrailingLoop | src/Localization/Translator.php:128-132 | The loop exactly as written, each pass seeing what the previous one left. Its result is the key unchanged or ends in one of the characters looped over. `Dictionary.TrailingLoopRewritesOnce` proves it equals a single rewrite. |
| Dictionary.Lookup | src/Localization/Translator.php:124-133 | An exact entry is returned as it is, so the fallback is not tried. On a miss, the result is the key after the one-shot trailing-character fallback over the table of line 34. A language missing from the dictionary returns the key itself. A plural list can only come from an exact entry. |
| Dictionary.LookupTrailingExample | src/Localization/Translator.php:128-132 | With `{"Hello": "Ahoj"}`, the key `"Hello!"` resolves to `"Ahoj!"`. |
| PhpStrings.IntToString | src/Localization/Translator.php:141 | An integer's decimal text is canonical. It is an integer literal that parses back to the same integer. It starts with `-` exactly when the integer is negative, never with `+`, and has no leading zero unless the integer is 0, whose text is `"0"`. It contains no `%`. |
| PhpStrings.IsLooseNumeric | src/Localization/Translator.php:117 | The grammar `is_numeric` accepts in some PHP version from 5 to 8: a signed decimal mantissa with an optional exponent within surrounding whitespace, or an unsigned hexadecimal number after leading whitespace only. `PhpStrings.IntegerLiteralIsNumeric` and `TranslatorExamples.NotNumeric` relate it to integer literals and to digit-free text. |
| PhpStrings.IntegerLiteralIsNumeric | src/Localization/Translator.php:117 | Every integer literal passes `is_numeric`. |
| PhpStrings.Explode | src/Localization/Translator.php:188 | `explode` yields at least one piece, no piece contains the separator, and joining the pieces with the separator gives back the input. |
| PhpStrings.ExplodeImplode | src/Localization/Translator.php:188 | Exploding the join of separator-free pieces gives back exactly those pieces. |
| Plural.Thresholds | src/Localization/Translator.php:188 | A numeric rule gives one threshold per `|`-separated piece, and at least one. The i-th threshold is the integer value of the i-th piece. |
| Plural.ScanForms | src/Localization/Translator.php:189-194 | The threshold loop, started from a state that satisfies its invariant, ends with the form `IsFormFor` describes: 0 or one past a reached threshold, with no threshold reached from it on. |
| Plural.GetForm | src/Localization/Translator.php:181-197 | A count of absolute value at most 1 takes form 0. Otherwise the form is one past the last threshold its absolute value reaches, or 0 when none is reached. So it never exceeds the number of thresholds. |
| Plural.GetFormIsTheForm | src/Localization/Translator.php:181-197 | `GetForm` returns the only form that satisfies that characterisation. |
| Plural.GetFormExamples | src/Localization/Translator.php:181-197 | With the rule `"1|4"`, the counts 1, 3, -3 and 10 take forms 0, 1, 1 and 2. |
| Sprintf.Vsprintf | src/Localization/Translator.php:141 | A format without directives comes back unchanged. |
| Sprintf.VsprintfLength | src/Localization/Translator.php:141 | The output's length is the format's length, less two characters per directive, plus the total length of the texts of the first arguments, one per directive. |
| Sprintf.VsprintfLeadingDirective | src/Localization/Translator.php:141 | A format that starts with `%s` puts the text of the first argument there and formats the rest with the remaining arguments. |
| Sprintf.VsprintfFillsDirective | src/Localization/Translator.php:141 | A `%s` between two formats is replaced by the text of the argument at its position, which is the number of directives before it. The text before it is formatted with the leading arguments, and the text after it with the arguments after that one. |
| Sprintf.VsprintfConsumesDirectives | src/Localization/Translator.php:141 | When no argument contains `%`, the formatted string contains no `%`, because every directive was consumed. |
| Sprintf.VsprintfIgnoresSurplus | src/Localization/Translator.php:146 | Arguments beyond the number of directives never reach the output. |
| Sprintf.VsprintfConcat | src/Localization/Translator.php:141 | Formatting two concatenated formats formats each part. The second part takes the arguments the first part left over. |
| Sprintf.StripPlaceholders | src/Localization/Translator.php:150 | `str_replace('%s', '', …)`, one scan from the left that does not rescan what it produced. The result is never longer than its input. The lemmas below state what it removes and what it keeps. |
| Sprintf.StripChangesOnlyPlaceholders | src/Localization/Translator.php:150 | The cleanup changes a string exactly when it contains `%s`, and then makes it strictly shorter. |
| Sprintf.StripLiteral | src/Localization/Translator.php:150 | A string without `%` passes the cleanup unchanged. |
| Sprintf.StripRemovesDirectives | src/Localization/Translator.php:150 | On a format whose every `%` starts `%s`, the cleanup leaves no `%` and removes two characters per directive. |
| Sprintf.StripConcat | src/Localization/Translator.php:150 | The cleanup works piece by piece across any cut that does not split a `%s`. |
| Translator.NumericValue | src/Localization/Translator.php:117-118 | A parameter yields a count exactly when `is_numeric` accepts it. An integer yields itself, and an integer literal yields its value. |
| Translator.Normalize | src/Localization/Translator.php:111-123 | A plain message is its own key, with no parameters. For an array message, the key is the string form of the first element, and the parameters are the remaining elements in order. An empty array gives the empty key. An explicit count is kept. Without one, the count is the first parameter's value exactly when that parameter is numeric. |
| Translator.ExplicitCountWins | src/Localization/Translator.php:117 | A count passed as an argument is never replaced by a numeric first parameter, and a count of 0 runs no second pass. |
| Translator.Choose | src/Localization/Translator.php:134-137 | A single translation is used as it is. A plural list gives its first form for counts of absolute value at most 1. For any other count, it gives the form `getForm` characterises, which is in bounds. |
| Translator.FirstPass | src/Localization/Translator.php:140-142 | The parameter pass runs only when there are parameters: with none, the text comes back unchanged even when it holds `%s`. A text without `%` comes back unchanged. With parameters free of `%`, the output holds no `%`. |
| Translator.FirstPassFillsAll | src/Localization/Translator.php:140-147 | When the message has parameters and none contains `%`, the first pass leaves no directive, so a second pass has nothing to fill. |
| Translator.Interpolate | src/Localization/Translator.php:139-147 | Without a truthy explicit count, only the parameter pass runs. With parameters free of `%`, the result is the text formatted with those parameters, whatever count is passed. With no parameters and a truthy explicit count, the result is the text formatted with every argument after the message. |
| Translator.Translate | src/Localization/Translator.php:109-153 | A plain key with an exact single entry free of `%` returns that entry, whatever the arguments. In a language the dictionary lacks, a plain key passed alone returns itself with `%s` removed. |
| Translator.LiteralTextSurvives | src/Localization/Translator.php:139-150 | A text without `%` passes both substitution passes and the cleanup unchanged, whatever the parameters and arguments. |
| Translator.TranslateExactEntry | src/Localization/Translator.php:124-125 | An exact single entry without `%` is the result, whatever count and arguments are passed. |
| Translator.TranslateTrailingFallback | src/Localization/Translator.php:126-132 | For the message `base + c` passed alone, on a miss with `c` in the table and `base` translated as `s`, the result is `s + c` when `s + c` contains no `%`. |
| Translator.TranslateUntranslatedKey | src/Localization/Translator.php:124-150 | A key that has no entry, and no trailing character whose removal finds one, goes on to substitution and cleanup as it is. |
| Translator.TranslateMissingLanguage | src/Localization/Translator.php:124-150 | In a language the dictionary lacks, nothing is translated. The normalised key itself is substituted and cleaned. |
| Translator.TranslatePluralForm | src/Localization/Translator.php:134-137 | A plural entry under an explicit count, passed with no argument after it, gives the form `getForm` selects when that form contains no `%`: form 0 for counts of absolute value at most 1, otherwise the one `IsFormFor` characterises. |
| Translator.TranslateWithoutCountSinglePass | src/Localization/Translator.php:144-147 | A call with the message alone runs at most one substitution pass, even when a numeric first parameter supplies the count. |
| Translator.SetLang | src/Localization/Translator.php:160-165 | An empty value (null, `""` or `"0"`) leaves the state unchanged. Any other value becomes the language without being checked against the dictionary. The dictionary never changes. |
| Translator.SetThenGetLang | src/Localization/Translator.php:160-173 | After setting a non-empty code, `getLang` returns exactly that code. |
| Translator.SetLangLastWins | src/Localization/Translator.php:160-165 | The last non-empty `setLang` wins, an empty one changes nothing, and setting the same value twice is the same as once. |
| Translator.SupportedLanguages | src/Localization/Translator.php:91-99 | The result has exactly the dictionary's language codes as keys, each mapped to that language's name. |
| TranslatorExamples.UnfilledPlaceholderIsStripped | src/Localization/Translator.php:149-152 | An untranslated key `before + "%s"` with no `%` in `before`, passed alone, comes back as `before`. For example, `"Value: %s"` becomes `"Value: "`. |
| TranslatorExamples.ParameterIsSubstituted | src/Localization/Translator.php:114-142 | The array message `["Hi %s", p]`, with a non-numeric `p`, fills the placeholder from `p`. |
| TranslatorExamples.HelloBob | src/Localization/Translator.php:114-142 | `["Hi %s", "Bob"]` becomes `"Hi Bob"`. |
| TranslatorExamples.TrailingPunctuationIsKept | src/Localization/Translator.php:126-132 | With `"Hello"` translated as `"Ahoj"` and no entry for `"Hello!"`, `"Hello!"` becomes `"Ahoj!"`. |
| TranslatorExamples.CountSelectsAndFillsForm | src/Localization/Translator.php:134-147 | Under the rule `"2|5"`, an explicit count n with absolute value 2 to 4 selects the second apple form, and the second pass writes n into it. |
| TranslatorExamples.ParameterCountSelectsForm | src/Localization/Translator.php:114-142 | The same count, taken from the message's own parameter, selects the same form, which the first pass fills. |
| TranslatorExamples.BothPassesLayer | src/Localization/Translator.php:139-147 | `["Hi %s", "%s"]` with a non-zero count n gives `"Hi " + n`. The second pass fills the placeholder that the first pass wrote. |
| TranslatorExamples.FormOfFew | src/Localization/Translator.php:181-197 | Under the rule `"2|5"`, counts of absolute value 2 to 4 take form 1. |

## Left out

- The constructor and `createDictionary` (lines 43-84). They cover file globbing, reading Neon files, the Nette cache and `TranslatorException` construction. The dictionary is an input to the model.
- Full `vsprintf`. Only `%s` directives are modelled, so `%d`, `%%`, width, precision and positional directives are not. A pass that runs requires its format to use only `%s` directives and to have no more directives than arguments. The version-dependent result with too few arguments (false or a `ValueError`) is left out.
- An explicit `NULL` count. Which arguments the second pass then sees depends on the PHP version, so the count is either absent (`NoCount`) or an integer. String counts are left out too.
- Translator.NumericValue: a string first parameter must be an integer literal or a string no PHP version takes as a number (`SupportedMessage`). Decimal strings such as `"1.5"` are not modelled, although `(int)` truncates them the same way in every version. Exponent strings are not modelled because the versions disagree: `(int)"1e3"` is 1 before PHP 7.1 and 1000 from 7.1 on. Neither are hexadecimal strings such as `"0x1A"`, which `is_numeric` accepts in PHP 5 and `(int)` reads as 0.
- Plural.GetForm: when a count's absolute value exceeds 1, every threshold of the rule must be an integer literal (`IsNumericRule`). Comparing an integer with a non-numeric string depends on the PHP version. Thresholds that are numeric but not integer literals, such as `"1.5"` or the space-padded pieces of `"2 | 5"`, compare numerically in every version but are excluded too. `strip_tags` on a count is the identity on integers.
- Translator.Choose: a plural entry requires a count and a selected form within the list (`ChooseDefined`). PHP 5 to 7 reads a missing count as 0 (`abs(strip_tags(NULL))`) and selects form 0, and only PHP 8 throws a `TypeError` there; the model requires a count instead. PHP would read a missing form index as null with a notice.
- `isset` treating a null translation as absent. Missing `name`, `translations` or `plural` keys in a language are not modelled either. Every language value has them.
- PHP integer overflow: integers are unbounded.
- Character encoding: strings are sequences of characters, so the model reads text per code point. This matches `mb_substr` (line 129) with a UTF-8 internal encoding. Under a single-byte internal encoding, the multi-byte `…` of the table would never match a message's last character.
- Translator.GetLang: carries no contract of its own. What it returns after `setLang` is stated by `Translator.SetThenGetLang`.
- Concurrent use of one instance: `setLang` and `translate` are single-threaded here.
- tests/bootstrap.php: test-environment setup only.

=== FILE: dictionary.dfy ===
/**
 The in-memory dictionary the translator is built on, and message lookup with
 the trailing-punctuation fallback.
 */
module Dictionary {

  /** A translation: one string, or the list of its plural forms. */
  datatype Value = Single(text: string) | Plural(forms: seq<string>)

  /** One language file: display name, translations, and the plural rule (`plural.form`). */
  datatype Language = Language(name: string, translations: map<string, Value>, pluralForm: string)

  /** Language code to language. */
  type Dict = map<string, Language>

  /** The punctuation a key may end with and still find the translation of the key without it, in scan order. */
  const TrailingChars: seq<char> := ['.', ',', ':', '!', '?', '\U{2026}']

  predicate Distinct(cs: seq<char>) {
    forall i, j :: 0 <= i < j < |cs| ==> cs[i] != cs[j]
  }

  /** PHP's string conversion of a translation: a plural list converts to "Array". */
  function AsString(v: Value): string {
    match v
    case Single(s) => s
    case Plural(_) => "Array"
  }

  /** The translations of the current language; a language missing from the dictionary has none. */
  function Translations(d: Dict, lang: string): map<string, Value> {
    if lang in d then d[lang].translations else map[]
  }

  function Last(s: string): char
    requires |s| > 0
  {
    s[|s| - 1]
  }

  function Init(s: string): string
    requires |s| > 0
  {
    s[..|s| - 1]
  }

  /** One pass of the fallback loop, for trailing character `c`. */
  function TrailingStep(tr: map<string, Value>, msg: string, c: char): string {
    if |msg| > 0 && Last(msg) == c && Init(msg) in tr then AsString(tr[Init(msg)]) + [c] else msg
  }

  /** The fallback loop: each character of `cs` in turn, each pass seeing what the previous one left. */
  function TrailingLoop(tr: map<string, Value>, msg: string, cs: seq<char>): (r: string)
    ensures r == msg || (|r| > 0 && Last(r) in cs)
    decreases |cs|
  {
    if |cs| == 0 then msg else TrailingLoop(tr, TrailingStep(tr, msg, cs[0]), cs[1..])
  }

  /**
   The fallback as one rewrite: a key ending in one of the trailing characters
   whose remainder has a translation becomes that translation with the
   character put back; any other key stays as it is.
   */
  function TrailingFallback(tr: map<string, Value>, msg: string): string {
    if |msg| > 0 && Last(msg) in TrailingChars && Init(msg) in tr then AsString(tr[Init(msg)]) + [Last(msg)]
    else msg
  }

  /**
   Over distinct characters the loop rewrites at most once: a rewritten
   message ends in the character that matched, which no later character of
   the scan equals.
   */
  lemma {:induction false} TrailingLoopRewritesOnce(tr: map<string, Value>, msg: string, cs: seq<char>)
    requires Distinct(cs)
    ensures TrailingLoop(tr, msg, cs) ==
      if |msg| > 0 && Last(msg) in cs && Init(msg) in tr then AsString(tr[Init(msg)]) + [Last(msg)] else msg
    decreases |cs|
  {
    if |cs| > 0 {
      var next := TrailingStep(tr, msg, cs[0]);
      assert Distinct(cs[1..]) by {
        forall i, j | 0 <= i < j < |cs[1..]| ensures cs[1..][i] != cs[1..][j] {
          assert cs[1..][i] == cs[i + 1] && cs[1..][j] == cs[j + 1];
        }
      }
      TrailingLoopRewritesOnce(tr, next, cs[1..]);
      if |msg| > 0 && Last(msg) == cs[0] {
        assert Last(msg) !in cs[1..] by {
          forall k | 0 <= k < |cs[1..]| ensures cs[1..][k] != cs[0] {
            assert cs[1..][k] == cs[k + 1];
          }
        }
        if Init(msg) in tr {
          assert Last(next) == cs[0];
        }
      } else if |msg| > 0 {
        assert Last(msg) in cs <==> Last(msg) in cs[1..];
      }
    }
  }

  /** Lookup of a key in the current language, with the fallback on a miss. */
  function Lookup(d: Dict, lang: string, key: string): (v: Value)
    ensures key in Translations(d, lang) ==> v == Translations(d, lang)[key]
    ensures key !in Translations(d, lang) ==> v == Single(TrailingFallback(Translations(d, lang), key))
    ensures lang !in d ==> v == Single(key)
    ensures v.Plural? ==> lang in d && key in d[lang].translations
  {
    var tr := Translations(d, lang);
    if key in tr then tr[key]
    else
      assert Distinct(TrailingChars);
      TrailingLoopRewritesOnce(tr, key, TrailingChars);
      Single(TrailingLoop(tr, key, TrailingChars))
  }

  /** With {"Hello": "Ahoj"}, the key "Hello!" finds "Ahoj" and keeps its "!". */
  lemma LookupTrailingExample()
    ensures Lookup(map["cs" := Language("Čeština", map["Hello" := Single("Ahoj")], "1|4")], "cs", "Hello!")
      == Single("Ahoj!")
  {
    var tr := map["Hello" := Single("Ahoj")];
    assert "Hello!" !in tr;
    assert Init("Hello!") == "Hello";
    assert Last("Hello!") == TrailingChars[3];
    assert TrailingFallback(tr, "Hello!") == "Ahoj!";
  }
}

=== FILE: php_strings.dfy ===
/**
 PHP string conversions the translator relies on: integer to string (the `%s`
 conversion and the `(string)` cast), integer literals as `is_numeric` and
 `(int)` read them, the looser numeric-string grammar of `is_numeric`, and
 `explode` on a one-character separator.
 */
module PhpStrings {

  predicate IsDigit(c: char) {
    '0' <= c <= '9'
  }

  predicate AllDigits(s: string) {
    forall i :: 0 <= i < |s| ==> IsDigit(s[i])
  }

  function DigitValue(c: char): nat
    requires IsDigit(c)
  {
    (c as int) - ('0' as int)
  }

  function DigitChar(d: nat): (c: char)
    requires d < 10
    ensures IsDigit(c) && DigitValue(c) == d
  {
    ('0' as int + d) as char
  }

  /** Value of a run of decimal digits, most significant first; leading zeros are allowed. */
  function DigitsValue(s: string): nat
    requires AllDigits(s)
  {
    if |s| == 0 then 0 else DigitsValue(s[..|s| - 1]) * 10 + DigitValue(s[|s| - 1])
  }

  /** Canonical decimal text of a natural number: at least one digit, no leading zero. */
  function NatToString(n: nat): (s: string)
    ensures |s| > 0 && AllDigits(s)
    ensures DigitsValue(s) == n
    ensures |s| > 1 ==> s[0] != '0'
    ensures s[0] == '0' ==> n == 0
  {
    if n < 10 then [DigitChar(n)]
    else
      var s := NatToString(n / 10) + [DigitChar(n % 10)];
      assert s[..|s| - 1] == NatToString(n / 10);
      s
  }

  /** An optional sign followed by at least one digit: the strings `is_numeric` accepts in every PHP version and `(int)` reads exactly. */
  predicate IsIntegerLiteral(s: string) {
    && |s| > 0
    && if s[0] == '+' || s[0] == '-' then |s| > 1 && AllDigits(s[1..]) else AllDigits(s)
  }

  /** `(int)` applied to an integer literal. */
  function ParseIntLiteral(s: string): int
    requires IsIntegerLiteral(s)
  {
    if s[0] == '-' then -(DigitsValue(s[1..]) as int)
    else if s[0] == '+' then DigitsValue(s[1..])
    else DigitsValue(s)
  }

  /**
   PHP's conversion of an integer to a string; `ParseIntLiteral` is its
   inverse. The text is canonical: a `-` exactly for negative numbers, never
   a `+`, and no leading zero except in "0" itself.
   */
  function IntToString(i: int): (s: string)
    ensures IsIntegerLiteral(s) && ParseIntLiteral(s) == i
    ensures '%' !in s
    ensures s[0] != '+'
    ensures (i < 0) == (s[0] == '-')
    ensures var digits := if i < 0 then s[1..] else s; digits[0] == '0' ==> i == 0 && s == "0"
  {
    if i < 0 then
      var s := "-" + NatToString(-i);
      assert s[1..] == NatToString(-i);
      s
    else NatToString(i)
  }

  /** The whitespace `is_numeric` skips around a number. */
  predicate IsNumericSpace(c: char) {
    c == ' ' || c == '\t' || c == '\n' || c == '\r' || c == '\U{B}' || c == '\U{C}'
  }

  function TrimLeft(s: string): (r: string)
    ensures |r| <= |s|
  {
    if |s| > 0 && IsNumericSpace(s[0]) then TrimLeft(s[1..]) else s
  }

  function TrimRight(s: string): (r: string)
    ensures |r| <= |s|
  {
    if |s| > 0 && IsNumericSpace(s[|s| - 1]) then TrimRight(s[..|s| - 1]) else s
  }

  /** Digits with an optional decimal point: `12`, `12.`, `12.5` or `.5`. */
  predicate IsMantissa(s: string) {
    || (|s| > 0 && AllDigits(s))
    || (|s| > 1 && exists i :: 0 <= i < |s| && s[i] == '.' && AllDigits(s[..i]) && AllDigits(s[i + 1..]))
  }

  /** A mantissa with an optional exponent, without a leading sign. */
  predicate IsUnsignedNumber(u: string) {
    || IsMantissa(u)
    || exists j :: 0 <= j < |u| && (u[j] == 'e' || u[j] == 'E') && IsMantissa(u[..j]) && IsIntegerLiteral(u[j + 1..])
  }

  predicate IsHexDigit(c: char) {
    IsDigit(c) || 'a' <= c <= 'f' || 'A' <= c <= 'F'
  }

  /** `0x` or `0X` followed by at least one hexadecimal digit. */
  predicate IsHexNumber(t: string) {
    |t| > 2 && t[0] == '0' && (t[1] == 'x' || t[1] == 'X')
    && forall i :: 2 <= i < |t| ==> IsHexDigit(t[i])
  }

  /**
   The strings that `is_numeric` accepts in some PHP version from 5 to 8:
   either a sign, a mantissa and an optional exponent within surrounding
   whitespace (trailing whitespace only from PHP 8 on), or (PHP 5 only) an
   unsigned hexadecimal number after leading whitespace.
   */
  predicate IsLooseNumeric(s: string) {
    var t := TrimRight(TrimLeft(s));
    var u := if |t| > 0 && (t[0] == '+' || t[0] == '-') then t[1..] else t;
    IsUnsignedNumber(u) || IsHexNumber(TrimLeft(s))
  }

  lemma IntegerLiteralIsNumeric(s: string)
    requires IsIntegerLiteral(s)
    ensures IsLooseNumeric(s)
  {
    assert TrimLeft(s) == s;
    assert TrimRight(s) == s;
    var u := if s[0] == '+' || s[0] == '-' then s[1..] else s;
    assert IsMantissa(u);
  }

  /** `explode` with a one-character separator: the pieces between separators, at least one. */
  function Explode(sep: char, s: string): (pieces: seq<string>)
    ensures |pieces| >= 1
    ensures forall i :: 0 <= i < |pieces| ==> sep !in pieces[i]
    ensures Implode(sep, pieces) == s
  {
    if |s| == 0 then [""]
    else
      var rest := Explode(sep, s[1..]);
      if s[0] == sep then
        assert Implode(sep, [""] + rest) == [sep] + Implode(sep, rest);
        [""] + rest
      else
        var pieces := [[s[0]] + rest[0]] + rest[1..];
        ImplodeConsHead(sep, s[0], rest);
        pieces
  }

  /** `implode` with a one-character glue. */
  function Implode(sep: char, pieces: seq<string>): string
    requires |pieces| >= 1
  {
    if |pieces| == 1 then pieces[0] else pieces[0] + [sep] + Implode(sep, pieces[1..])
  }

  lemma ImplodeConsHead(sep: char, c: char, pieces: seq<string>)
    requires |pieces| >= 1
    ensures Implode(sep, [[c] + pieces[0]] + pieces[1..]) == [c] + Implode(sep, pieces)
  {
    var q := [[c] + pieces[0]] + pieces[1..];
    if |pieces| > 1 {
      assert q[1..] == pieces[1..];
    }
  }

  /** Splitting text that starts with a separator-free run `a` puts `a` in front of the first piece. */
  lemma {:induction false} ExplodePrefix(sep: char, a: string, b: string)
    requires sep !in a
    ensures Explode(sep, a + b) == [a + Explode(sep, b)[0]] + Explode(sep, b)[1..]
    decreases |a|
  {
    if |a| > 0 {
      assert (a + b)[0] == a[0];
      assert (a + b)[1..] == a[1..] + b;
      ExplodePrefix(sep, a[1..], b);
      assert [a[0]] + (a[1..] + Explode(sep, b)[0]) == a + Explode(sep, b)[0];
    } else {
      var e := Explode(sep, b);
      assert a + b == b;
      assert a + e[0] == e[0];
      assert e == [e[0]] + e[1..];
    }
  }

  /** `explode` undoes `implode` when no piece contains the separator. */
  lemma {:induction false} ExplodeImplode(sep: char, pieces: seq<string>)
    requires |pieces| >= 1
    requires forall i :: 0 <= i < |pieces| ==> sep !in pieces[i]
    ensures Explode(sep, Implode(sep, pieces)) == pieces
  {
    if |pieces| == 1 {
      ExplodePrefix(sep, pieces[0], "");
      assert Explode(sep, "") == [""];
      assert pieces[0] + "" == pieces[0];
    } else {
      var tail := Implode(sep, pieces[1..]);
      ExplodeImplode(sep, pieces[1..]);
      ExplodePrefix(sep, pieces[0], [sep] + tail);
      assert ([sep] + tail)[1..] == tail;
      assert Explode(sep, [sep] + tail) == [""] + pieces[1..];
      assert pieces[0] + "" == pieces[0];
      assert pieces[0] + [sep] + tail == pieces[0] + ([sep] + tail);
      assert pieces == [pieces[0]] + pieces[1..];
    }
  }
}

=== FILE: plural.dfy ===
/**
 Plural-form selection (`getForm`): a language's plural rule is a `|`-separated
 list of ascending thresholds such as "1|4", and a count selects the form one
 past the last threshold it reaches.
 */
module Plural {
  import opened PhpStrings

  function Abs(x: int): nat {
    if x < 0 then -x else x
  }

  /** Every piece of the rule is an integer literal, so comparing a count with it is numeric in every PHP version. */
  predicate IsNumericRule(rule: string) {
    var pieces := Explode('|', rule);
    forall i :: 0 <= i < |pieces| ==> IsIntegerLiteral(pieces[i])
  }

  function ParseAll(pieces: seq<string>): (ts: seq<int>)
    requires forall i :: 0 <= i < |pieces| ==> IsIntegerLiteral(pieces[i])
    ensures |ts| == |pieces|
    ensures forall i :: 0 <= i < |pieces| ==> ts[i] == ParseIntLiteral(pieces[i])
  {
    if |pieces| == 0 then [] else [ParseIntLiteral(pieces[0])] + ParseAll(pieces[1..])
  }

  /** The numeric thresholds of a rule, in the order the rule lists them. */
  function Thresholds(rule: string): (ts: seq<int>)
    requires IsNumericRule(rule)
    ensures |ts| == |Explode('|', rule)| >= 1
    ensures forall i :: 0 <= i < |ts| ==> ts[i] == ParseIntLiteral(Explode('|', rule)[i])
  {
    ParseAll(Explode('|', rule))
  }

  /**
   `form` is the plural form of `count` under thresholds `ts`: the threshold
   just before it is reached by `count` and none from it on is. So `form` is
   0 when no threshold is reached, and otherwise one past the LAST reached.
   */
  predicate IsFormFor(count: int, ts: seq<int>, form: nat) {
    && form <= |ts|
    && (form > 0 ==> ts[form - 1] <= count)
    && (forall j :: form <= j < |ts| ==> ts[j] > count)
  }

  lemma FormIsUnique(count: int, ts: seq<int>, f1: nat, f2: nat)
    requires IsFormFor(count, ts, f1) && IsFormFor(count, ts, f2)
    ensures f1 == f2
  {
  }

  /** What the loop of `getForm` knows after looking at the first `i` thresholds. */
  predicate ScanInvariant(count: int, ts: seq<int>, i: nat, form: nat) {
    && i <= |ts|
    && form <= i
    && (form > 0 ==> ts[form - 1] <= count)
    && (forall j :: form <= j < i ==> ts[j] > count)
  }

  /** The loop of `getForm`: every threshold at position `i` that `count` reaches sets the form to `i + 1`. */
  function ScanForms(count: int, ts: seq<int>, i: nat, form: nat): (r: nat)
    requires ScanInvariant(count, ts, i, form)
    ensures IsFormFor(count, ts, r)
    decreases |ts| - i
  {
    if i == |ts| then form
    else ScanForms(count, ts, i + 1, if count >= ts[i] then i + 1 else form)
  }

  /**
   `getForm`: counts whose absolute value is at most 1 take form 0; any other
   count is compared, in absolute value, with the thresholds of the rule.
   */
  function GetForm(count: int, rule: string): (form: nat)
    requires Abs(count) > 1 ==> IsNumericRule(rule)
    ensures Abs(count) <= 1 ==> form == 0
    ensures Abs(count) > 1 ==> IsFormFor(Abs(count), Thresholds(rule), form)
    ensures Abs(count) > 1 ==> form <= |Explode('|', rule)|
  {
    var c := Abs(count);
    if c <= 1 then 0 else ScanForms(c, Thresholds(rule), 0, 0)
  }

  /** `GetForm` returns the one form `IsFormFor` allows. */
  lemma GetFormIsTheForm(count: int, rule: string)
    ensures Abs(count) > 1 && IsNumericRule(rule) ==>
      forall f: nat :: IsFormFor(Abs(count), Thresholds(rule), f) ==> f == GetForm(count, rule)
  {
    if Abs(count) > 1 && IsNumericRule(rule) {
      forall f: nat | IsFormFor(Abs(count), Thresholds(rule), f) ensures f == GetForm(count, rule) {
        FormIsUnique(Abs(count), Thresholds(rule), f, GetForm(count, rule));
      }
    }
  }

  /** With the rule "1|4" (one, few, many), the counts 1, 3, -3 and 10 take forms 0, 1, 1 and 2. */
  lemma GetFormExamples()
    ensures GetForm(1, "1|4") == 0
    ensures GetForm(3, "1|4") == 1
    ensures GetForm(-3, "1|4") == 1
    ensures GetForm(10, "1|4") == 2
  {
    var rule := "1|4";
    assert Implode('|', ["1", "4"]) == rule;
    ExplodeImplode('|', ["1", "4"]);
    assert IsNumericRule(rule);
    var ts := Thresholds(rule);
    assert ts == [1, 4];
    FormIsUnique(3, ts, GetForm(3, rule), 1);
    FormIsUnique(3, ts, GetForm(-3, rule), 1);
    FormIsUnique(10, ts, GetForm(10, rule), 2);
  }
}

=== FILE: sprintf.dfy ===
/**
 The two string operations `translate` applies after resolving a message:
 `vsprintf` restricted to `%s` directives, and `str_replace('%s', '', ...)`,
 the cleanup of placeholders nobody filled.
 */
module Sprintf {
  import opened PhpStrings

  /** A positional parameter of a message or of `translate` itself: an integer or a string. */
  datatype Param = IntP(i: int) | StrP(s: string)

  /** PHP's string conversion of a parameter, used by both `%s` and the `(string)` cast. */
  function ToPhpString(p: Param): string {
    match p
    case IntP(i) => IntToString(i)
    case StrP(s) => s
  }

  /** Every `%` of the format starts a `%s` directive: the only formats this model interprets. */
  predicate OnlyStringDirectives(f: string) {
    if |f| == 0 then true
    else if f[0] == '%' then |f| >= 2 && f[1] == 's' && OnlyStringDirectives(f[2..])
    else OnlyStringDirectives(f[1..])
  }

  /** Number of directives met by a left-to-right scan of the format. */
  function Directives(f: string): nat {
    if |f| == 0 then 0
    else if f[0] == '%' && |f| >= 2 then 1 + Directives(f[2..])
    else Directives(f[1..])
  }

  /** True when a `%s` starts at position `i`. */
  predicate PlaceholderAt(s: string, i: int)
    requires 0 <= i < |s| - 1
  {
    s[i] == '%' && s[i + 1] == 's'
  }

  /** True when the text contains `%s` somewhere. */
  predicate HasPlaceholder(s: string) {
    exists i :: 0 <= i < |s| - 1 && PlaceholderAt(s, i)
  }

  /** Total length of the string forms of the first `k` arguments. */
  function PrefixLength(args: seq<Param>, k: nat): nat
    requires k <= |args|
  {
    if k == 0 then 0 else |ToPhpString(args[0])| + PrefixLength(args[1..], k - 1)
  }

  predicate NoPercentIn(args: seq<Param>) {
    forall k :: 0 <= k < |args| ==> '%' !in ToPhpString(args[k])
  }

  /**
   `vsprintf(f, args)` for a format whose directives are all `%s`: each
   directive, left to right, is replaced by the next argument; surplus
   arguments are ignored.
   */
  function Vsprintf(f: string, args: seq<Param>): (r: string)
    requires OnlyStringDirectives(f) && Directives(f) <= |args|
    ensures Directives(f) == 0 ==> r == f
    decreases |f|
  {
    if |f| == 0 then ""
    else if f[0] == '%' then ToPhpString(args[0]) + Vsprintf(f[2..], args[1..])
    else
      [f[0]] + Vsprintf(f[1..], args)
  }

  /** Each directive gives way to the text of one argument; the rest of the format is copied. */
  lemma {:induction false} VsprintfLength(f: string, args: seq<Param>)
    requires OnlyStringDirectives(f) && Directives(f) <= |args|
    ensures |Vsprintf(f, args)| == |f| - 2 * Directives(f) + PrefixLength(args, Directives(f))
    decreases |f|
  {
    if |f| > 0 {
      if f[0] == '%' {
        VsprintfLength(f[2..], args[1..]);
      } else {
        VsprintfLength(f[1..], args);
      }
    }
  }

  /** Text without `%` is a format with no directives, so formatting leaves it as it is. */
  lemma {:induction false} NoPercentIsLiteral(f: string)
    ensures '%' !in f ==> OnlyStringDirectives(f) && Directives(f) == 0
    decreases |f|
  {
    if |f| > 0 && '%' !in f {
      assert f[0] != '%';
      assert '%' !in f[1..] by {
        forall k | 0 <= k < |f[1..]| ensures f[1..][k] != '%' {
          assert f[1..][k] == f[k + 1];
        }
      }
      NoPercentIsLiteral(f[1..]);
    }
  }

  /** When no argument carries a `%`, a formatted string has none left: every directive was consumed. */
  lemma {:induction false} VsprintfConsumesDirectives(f: string, args: seq<Param>)
    requires OnlyStringDirectives(f) && Directives(f) <= |args|
    requires NoPercentIn(args)
    ensures '%' !in Vsprintf(f, args)
    decreases |f|
  {
    if |f| > 0 {
      if f[0] == '%' {
        assert NoPercentIn(args[1..]) by {
          forall k | 0 <= k < |args[1..]| ensures '%' !in ToPhpString(args[1..][k]) {
            assert args[1..][k] == args[k + 1];
          }
        }
        assert '%' !in ToPhpString(args[0]);
        VsprintfConsumesDirectives(f[2..], args[1..]);
      } else {
        VsprintfConsumesDirectives(f[1..], args);
      }
    }
  }

  /**
   `str_replace('%s', '', s)`: a left-to-right scan that drops every
   non-overlapping occurrence of `%s` and keeps everything else.
   */
  function StripPlaceholders(s: string): (r: string)
    ensures |r| <= |s|
    decreases |s|
  {
    if |s| < 2 then s
    else if s[0] == '%' && s[1] == 's' then StripPlaceholders(s[2..])
    else [s[0]] + StripPlaceholders(s[1..])
  }

  /** A text with a `%s` has one somewhere after its first character unless it starts with one. */
  lemma PlaceholderInTail(s: string)
    requires |s| >= 2 && !(s[0] == '%' && s[1] == 's')
    ensures HasPlaceholder(s) <==> HasPlaceholder(s[1..])
  {
    var tail := s[1..];
    if HasPlaceholder(s) {
      var i :| 0 <= i < |s| - 1 && PlaceholderAt(s, i);
      assert i > 0;
      assert PlaceholderAt(tail, i - 1);
    }
    if HasPlaceholder(tail) {
      var i :| 0 <= i < |tail| - 1 && PlaceholderAt(tail, i);
      assert PlaceholderAt(s, i + 1);
    }
  }

  /** The cleanup changes a text exactly when it holds a `%s`, and then makes it shorter. */
  lemma {:induction false} StripChangesOnlyPlaceholders(s: string)
    ensures !HasPlaceholder(s) ==> StripPlaceholders(s) == s
    ensures HasPlaceholder(s) ==> |StripPlaceholders(s)| < |s|
    decreases |s|
  {
    if |s| >= 2 {
      if s[0] == '%' && s[1] == 's' {
        assert PlaceholderAt(s, 0);
      } else {
        PlaceholderInTail(s);
        StripChangesOnlyPlaceholders(s[1..]);
      }
    }
  }

  /** A text without `%` comes out of the cleanup unchanged. */
  lemma StripLiteral(s: string)
    requires '%' !in s
    ensures StripPlaceholders(s) == s
  {
    assert !HasPlaceholder(s) by {
      forall i | 0 <= i < |s| - 1 ensures !PlaceholderAt(s, i) {
        assert s[i] in s;
      }
    }
    StripChangesOnlyPlaceholders(s);
  }

  /** On a `%s`-only format the cleanup removes every directive and leaves no `%`. */
  lemma {:induction false} StripRemovesDirectives(s: string)
    requires OnlyStringDirectives(s)
    ensures '%' !in StripPlaceholders(s)
    ensures |StripPlaceholders(s)| == |s| - 2 * Directives(s)
    decreases |s|
  {
    if |s| == 1 {
      assert s[0] != '%';
    } else if |s| >= 2 {
      if s[0] == '%' {
        StripRemovesDirectives(s[2..]);
      } else {
        StripRemovesDirectives(s[1..]);
      }
    }
  }

  /** One step of the cleanup scan. */
  lemma StripStep(s: string)
    requires |s| >= 2
    ensures s[0] == '%' && s[1] == 's' ==> StripPlaceholders(s) == StripPlaceholders(s[2..])
    ensures !(s[0] == '%' && s[1] == 's') ==> StripPlaceholders(s) == [s[0]] + StripPlaceholders(s[1..])
  {
  }

  /** The step of `StripConcat` past a leading `%s` of `a`. */
  lemma StripConcatPlaceholder(a: string, b: string)
    requires |a| >= 2 && a[0] == '%' && a[1] == 's'
    requires StripPlaceholders(a[2..] + b) == StripPlaceholders(a[2..]) + StripPlaceholders(b)
    ensures StripPlaceholders(a + b) == StripPlaceholders(a) + StripPlaceholders(b)
  {
    StripStep(a + b);
    StripStep(a);
    assert (a + b)[2..] == a[2..] + b;
  }

  /** The step of `StripConcat` past a leading character of `a` that starts no `%s`. */
  lemma StripConcatLiteral(a: string, b: string)
    requires |a| >= 2 && !(a[0] == '%' && a[1] == 's')
    requires StripPlaceholders(a[1..] + b) == StripPlaceholders(a[1..]) + StripPlaceholders(b)
    ensures StripPlaceholders(a + b) == StripPlaceholders(a) + StripPlaceholders(b)
  {
    StripStep(a + b);
    StripStep(a);
    assert (a + b)[1..] == a[1..] + b;
    ConcatAssoc([a[0]], StripPlaceholders(a[1..]), StripPlaceholders(b));
  }

  /** The cleanup works piecewise across any cut that does not split a `%s`. */
  lemma {:induction false} StripConcat(a: string, b: string)
    requires |a| == 0 || a[|a| - 1] != '%'
    ensures StripPlaceholders(a + b) == StripPlaceholders(a) + StripPlaceholders(b)
    decreases |a|
  {
    if |a| == 0 {
      assert a + b == b;
    } else if |a| == 1 {
      if |b| == 0 {
        assert a + b == a;
      } else {
        StripStep(a + b);
        assert (a + b)[1..] == b;
      }
    } else if a[0] == '%' && a[1] == 's' {
      StripConcat(a[2..], b);
      StripConcatPlaceholder(a, b);
    } else {
      StripConcat(a[1..], b);
      StripConcatLiteral(a, b);
    }
  }

  /** Surplus arguments never reach the output. */
  lemma {:induction false} VsprintfIgnoresSurplus(f: string, args: seq<Param>)
    requires OnlyStringDirectives(f) && Directives(f) <= |args|
    ensures Vsprintf(f, args) == Vsprintf(f, args[..Directives(f)])
    decreases |f|
  {
    if |f| == 0 {
    } else if f[0] == '%' {
      VsprintfIgnoresSurplus(f[2..], args[1..]);
      assert args[..Directives(f)][1..] == args[1..][..Directives(f[2..])];
      assert args[..Directives(f)][1..][..Directives(f[2..])] == args[1..][..Directives(f[2..])];
      VsprintfIgnoresSurplus(f[2..], args[..Directives(f)][1..]);
    } else {
      VsprintfIgnoresSurplus(f[1..], args);
      VsprintfIgnoresSurplus(f[1..], args[..Directives(f)]);
      assert args[..Directives(f)][..Directives(f[1..])] == args[..Directives(f)];
    }
  }

  /** Concatenating two `%s`-only formats gives one whose directives are theirs, in order. */
  lemma {:induction false} DirectivesConcat(a: string, b: string)
    requires OnlyStringDirectives(a) && OnlyStringDirectives(b)
    ensures OnlyStringDirectives(a + b)
    ensures Directives(a + b) == Directives(a) + Directives(b)
    decreases |a|
  {
    if |a| == 0 {
      assert a + b == b;
    } else if a[0] == '%' {
      assert (a + b)[2..] == a[2..] + b;
      DirectivesConcat(a[2..], b);
    } else {
      assert (a + b)[1..] == a[1..] + b;
      DirectivesConcat(a[1..], b);
    }
  }

  lemma ConcatAssoc(x: string, y: string, z: string)
    ensures x + (y + z) == (x + y) + z
  {
  }

  /** One step of `vsprintf` over a leading directive. */
  lemma VsprintfDirective(f: string, args: seq<Param>)
    requires OnlyStringDirectives(f) && Directives(f) <= |args|
    requires |f| > 0 && f[0] == '%'
    ensures |f| >= 2 && OnlyStringDirectives(f[2..]) && Directives(f) == 1 + Directives(f[2..])
    ensures Vsprintf(f, args) == ToPhpString(args[0]) + Vsprintf(f[2..], args[1..])
  {
  }

  /** One step of `vsprintf` over a leading literal character. */
  lemma VsprintfLiteral(f: string, args: seq<Param>)
    requires OnlyStringDirectives(f) && Directives(f) <= |args|
    requires |f| > 0 && f[0] != '%'
    ensures OnlyStringDirectives(f[1..]) && Directives(f) == Directives(f[1..])
    ensures Vsprintf(f, args) == [f[0]] + Vsprintf(f[1..], args)
  {
  }

  /** The step of `VsprintfConcat` past a leading directive of `a`. */
  lemma VsprintfConcatDirective(a: string, b: string, args: seq<Param>, rest: string)
    requires OnlyStringDirectives(a) && |a| >= 2 && a[0] == '%'
    requires OnlyStringDirectives(a + b) && Directives(a + b) <= |args|
    requires Directives(a) <= |args|
    requires OnlyStringDirectives(a[2..]) && Directives(a) == 1 + Directives(a[2..])
    requires OnlyStringDirectives(a[2..] + b) && Directives(a[2..] + b) <= |args| - 1
    requires Vsprintf(a[2..] + b, args[1..]) == Vsprintf(a[2..], args[1..]) + rest
    ensures Vsprintf(a + b, args) == Vsprintf(a, args) + rest
  {
    VsprintfDirective(a + b, args);
    VsprintfDirective(a, args);
    assert (a + b)[2..] == a[2..] + b;
    ConcatAssoc(ToPhpString(args[0]), Vsprintf(a[2..], args[1..]), rest);
  }

  /** The step of `VsprintfConcat` past a leading literal character of `a`. */
  lemma VsprintfConcatLiteral(a: string, b: string, args: seq<Param>, rest: string)
    requires OnlyStringDirectives(a) && |a| > 0 && a[0] != '%'
    requires OnlyStringDirectives(a + b) && Directives(a + b) <= |args|
    requires Directives(a) <= |args|
    requires OnlyStringDirectives(a[1..] + b) && Directives(a[1..] + b) <= |args|
    requires Vsprintf(a[1..] + b, args) == Vsprintf(a[1..], args) + rest
    ensures Vsprintf(a + b, args) == Vsprintf(a, args) + rest
  {
    VsprintfLiteral(a + b, args);
    VsprintfLiteral(a, args);
    assert (a + b)[1..] == a[1..] + b;
    ConcatAssoc([a[0]], Vsprintf(a[1..], args), rest);
  }

  /** A format that starts with a directive takes its first argument there. */
  lemma VsprintfLeadingDirective(b: string, args: seq<Param>)
    requires OnlyStringDirectives(b) && 1 + Directives(b) <= |args|
    ensures OnlyStringDirectives("%s" + b) && Directives("%s" + b) == 1 + Directives(b)
    ensures Vsprintf("%s" + b, args) == ToPhpString(args[0]) + Vsprintf(b, args[1..])
  {
    var f := "%s" + b;
    assert f[0] == '%' && f[1] == 's' && f[2..] == b;
    VsprintfDirective(f, args);
  }

  /**
   A directive between two formats is replaced by the argument at its
   position: the number of directives before it.
   */
  lemma VsprintfFillsDirective(a: string, b: string, args: seq<Param>)
    requires OnlyStringDirectives(a) && OnlyStringDirectives(b)
    requires Directives(a) + 1 + Directives(b) <= |args|
    ensures OnlyStringDirectives(a + ("%s" + b)) && Directives(a + ("%s" + b)) == Directives(a) + 1 + Directives(b)
    ensures Vsprintf(a + ("%s" + b), args) ==
      Vsprintf(a, args) + (ToPhpString(args[Directives(a)]) + Vsprintf(b, args[Directives(a) + 1..]))
  {
    var k := Directives(a);
    VsprintfLeadingDirective(b, args[k..]);
    assert args[k..][0] == args[k] && args[k..][1..] == args[k + 1..];
    var tail := Vsprintf("%s" + b, args[k..]);
    assert tail == ToPhpString(args[k]) + Vsprintf(b, args[k + 1..]);
    VsprintfConcat(a, "%s" + b, args);
    assert Vsprintf(a + ("%s" + b), args) == Vsprintf(a, args) + tail;
  }

  /** Formatting a concatenation formats each part, the second with the arguments the first left over. */
  lemma {:induction false} VsprintfConcat(a: string, b: string, args: seq<Param>)
    requires OnlyStringDirectives(a) && OnlyStringDirectives(b)
    requires Directives(a) + Directives(b) <= |args|
    ensures OnlyStringDirectives(a + b) && Directives(a + b) == Directives(a) + Directives(b)
    ensures Vsprintf(a + b, args) == Vsprintf(a, args) + Vsprintf(b, args[Directives(a)..])
    decreases |a|
  {
    DirectivesConcat(a, b);
    if |a| == 0 {
      assert a + b == b;
    } else if a[0] == '%' {
      VsprintfDirective(a, args);
      VsprintfConcat(a[2..], b, args[1..]);
      assert args[1..][Directives(a[2..])..] == args[Directives(a)..];
      VsprintfConcatDirective(a, b, args, Vsprintf(b, args[Directives(a)..]));
    } else {
      VsprintfConcat(a[1..], b, args);
      VsprintfConcatLiteral(a, b, args, Vsprintf(b, args[Directives(a)..]));
    }
  }
}

=== FILE: translator.dfy ===
/**
 The translator: its state (current language and dictionary), language
 switching, the list of supported languages, and `translate`, which resolves a
 message through lookup, plural selection, two substitution passes and a final
 cleanup of unfilled `%s` placeholders.
 */
module Translator {
  import opened Wrappers
  import opened PhpStrings
  import opened Sprintf
  import opened Plural
  import opened Dictionary

  /** A message: a plain key, or an array whose first element is the key and whose other elements are its parameters. */
  datatype Message = Plain(text: string) | Array(elements: seq<Param>)

  /** The arguments of `translate` after the message: none, or a count followed by further positional arguments. */
  datatype Args = NoCount | Count(n: int, rest: seq<Param>)

  /** Translator state: the current language code and the dictionary loaded at construction. */
  datatype Translator = Translator(lang: string, dictionary: Dict)

  /** A message after normalisation: key, message parameters and count. */
  datatype Call = Call(key: string, params: seq<Param>, count: Option<int>)

  /** What `func_get_args()` holds after the message. */
  function ArgList(args: Args): seq<Param> {
    match args
    case NoCount => []
    case Count(n, rest) => [IntP(n)] + rest
  }

  /** `is_numeric` on a parameter, in some PHP version. */
  predicate IsNumeric(p: Param) {
    p.IntP? || IsLooseNumeric(p.s)
  }

  /**
   A parameter whose `is_numeric` and `(int)` this model reads exactly: an
   integer, an integer literal, or a string no PHP version takes as a number.
   */
  predicate SupportedNumeric(p: Param) {
    p.StrP? ==> IsIntegerLiteral(p.s) || !IsLooseNumeric(p.s)
  }

  /** The first message parameter is only read as a count when no count was passed. */
  predicate SupportedMessage(msg: Message, args: Args) {
    msg.Array? && |msg.elements| >= 2 && args.NoCount? ==> SupportedNumeric(msg.elements[1])
  }

  /** `is_numeric` followed by `(int)`: the count a parameter supplies, if any. */
  function NumericValue(p: Param): (r: Option<int>)
    requires SupportedNumeric(p)
    ensures r.Some? <==> IsNumeric(p)
    ensures p.IntP? ==> r == Some(p.i)
    ensures p.StrP? && r.Some? ==> IsIntegerLiteral(p.s) && r.value == ParseIntLiteral(p.s)
  {
    match p
    case IntP(i) => Some(i)
    case StrP(s) =>
      if IsIntegerLiteral(s) then
        IntegerLiteralIsNumeric(s);
        Some(ParseIntLiteral(s))
      else None
  }

  /**
   Lines 111-120 and 123: an array message splits into its key (cast to a
   string) and the remaining elements as parameters; a numeric first
   parameter becomes the count when none was passed.
   */
  function Normalize(msg: Message, args: Args): (c: Call)
    requires SupportedMessage(msg, args)
    ensures msg.Plain? ==> c.key == msg.text && c.params == []
    ensures msg.Array? && |msg.elements| > 0 ==>
      c.key == ToPhpString(msg.elements[0]) && [msg.elements[0]] + c.params == msg.elements
    ensures msg.Array? && |msg.elements| == 0 ==> c.key == "" && c.params == []
    ensures args.Count? ==> c.count == Some(args.n)
    ensures args.NoCount? ==> (c.count.Some? <==> |c.params| > 0 && IsNumeric(c.params[0]))
    ensures args.NoCount? && c.count.Some? ==> c.count == NumericValue(c.params[0])
  {
    var count := if args.Count? then Some(args.n) else None;
    match msg
    case Plain(text) => Call(text, [], count)
    case Array(elements) =>
      if |elements| == 0 then Call("", [], count)
      else
        var params := elements[1..];
        assert [elements[0]] + params == elements;
        var count' := if |params| > 0 && count.None? then NumericValue(params[0]) else count;
        Call(ToPhpString(elements[0]), params, count')
  }

  /** The plural rule of the current language. */
  function Rule(t: Translator): string
    requires t.lang in t.dictionary
  {
    t.dictionary[t.lang].pluralForm
  }

  /**
   What plural selection needs: a count, a numeric rule when the count is
   compared with it, and a form list long enough for the selected index.
   */
  predicate ChooseDefined(t: Translator, v: Value, count: Option<int>) {
    v.Plural? ==>
      && count.Some?
      && t.lang in t.dictionary
      && (Abs(count.value) > 1 ==> IsNumericRule(Rule(t)))
      && GetForm(count.value, Rule(t)) < |v.forms|
  }

  /** Lines 134-137: a single translation is used as it is; a plural one gives the form of the count. */
  function Choose(t: Translator, v: Value, count: Option<int>): (s: string)
    requires ChooseDefined(t, v, count)
    ensures v.Single? ==> s == v.text
    ensures v.Plural? && Abs(count.value) <= 1 ==> s == v.forms[0]
    ensures v.Plural? && Abs(count.value) > 1 ==>
      forall f: nat :: IsFormFor(Abs(count.value), Thresholds(Rule(t)), f) ==> f < |v.forms| && s == v.forms[f]
  {
    match v
    case Single(text) => text
    case Plural(forms) =>
      GetFormIsTheForm(count.value, Rule(t));
      forms[GetForm(count.value, Rule(t))]
  }

  /** The second pass runs only for a truthy count passed as an argument. */
  predicate SecondPass(args: Args) {
    args.Count? && args.n != 0
  }

  predicate FirstPassDefined(s: string, params: seq<Param>) {
    |params| > 0 ==> OnlyStringDirectives(s) && Directives(s) <= |params|
  }

  /** Lines 140-142: substitution of the message parameters, when there are any. */
  function FirstPass(s: string, params: seq<Param>): (r: string)
    requires FirstPassDefined(s, params)
    ensures |params| == 0 ==> r == s
    ensures '%' !in s ==> r == s
    ensures |params| > 0 && NoPercentIn(params) ==> '%' !in r
  {
    NoPercentIsLiteral(s);
    if |params| > 0 then
      var r := Vsprintf(s, params);
      assert NoPercentIn(params) ==> '%' !in r by {
        if NoPercentIn(params) { VsprintfConsumesDirectives(s, params); }
      }
      r
    else s
  }

  /** Parameters free of `%` leave the first pass's output with no directive for the second pass. */
  lemma FirstPassFillsAll(s: string, params: seq<Param>)
    requires FirstPassDefined(s, params)
    ensures |params| > 0 && NoPercentIn(params) ==>
      OnlyStringDirectives(FirstPass(s, params)) && Directives(FirstPass(s, params)) == 0
  {
    if |params| > 0 && NoPercentIn(params) {
      VsprintfConsumesDirectives(s, params);
      NoPercentIsLiteral(FirstPass(s, params));
    }
  }

  predicate InterpolateDefined(s: string, params: seq<Param>, args: Args) {
    && FirstPassDefined(s, params)
    && (SecondPass(args) ==>
          var s1 := FirstPass(s, params);
          OnlyStringDirectives(s1) && Directives(s1) <= |ArgList(args)|)
  }

  /**
   Lines 140-147: the parameter pass, then a second pass with every argument
   after the message, layered on the first one's output. Without a truthy
   explicit count only the parameter pass runs; when parameters are given
   and none of them carries a `%`, the second pass finds nothing left to
   fill; with no parameters, the arguments fill the text directly.
   */
  function Interpolate(s: string, params: seq<Param>, args: Args): (r: string)
    requires InterpolateDefined(s, params, args)
    ensures !SecondPass(args) ==> r == FirstPass(s, params)
    ensures |params| > 0 && NoPercentIn(params) ==> r == Vsprintf(s, params)
    ensures |params| == 0 && SecondPass(args) ==> r == Vsprintf(s, ArgList(args))
  {
    FirstPassFillsAll(s, params);
    var s1 := FirstPass(s, params);
    if SecondPass(args) then Vsprintf(s1, ArgList(args)) else s1
  }

  predicate TranslateDefined(t: Translator, msg: Message, args: Args) {
    && SupportedMessage(msg, args)
    && var c := Normalize(msg, args);
       var v := Lookup(t.dictionary, t.lang, c.key);
       && ChooseDefined(t, v, c.count)
       && InterpolateDefined(Choose(t, v, c.count), c.params, args)
  }

  /**
   `translate(message, count, ...)`: normalise, look up, select the plural
   form, substitute, and strip what is left of `%s`. A plain key with an
   exact entry free of `%` comes back as that entry whatever the arguments;
   in a language the dictionary lacks, a plain key without arguments comes
   back as itself, stripped of `%s`.
   */
  function Translate(t: Translator, msg: Message, args: Args): (r: string)
    requires TranslateDefined(t, msg, args)
    ensures var tr := Translations(t.dictionary, t.lang);
      msg.Plain? && msg.text in tr && tr[msg.text].Single? && '%' !in tr[msg.text].text ==> r == tr[msg.text].text
    ensures t.lang !in t.dictionary && msg.Plain? && args.NoCount? ==> r == StripPlaceholders(msg.text)
  {
    var c := Normalize(msg, args);
    var s := Choose(t, Lookup(t.dictionary, t.lang, c.key), c.count);
    LiteralTextSurvives(s, c.params, args);
    StripPlaceholders(Interpolate(s, c.params, args))
  }

  /** Text without `%` goes through both substitution passes and the cleanup unchanged. */
  lemma LiteralTextSurvives(s: string, params: seq<Param>, args: Args)
    ensures '%' !in s ==> InterpolateDefined(s, params, args) && StripPlaceholders(Interpolate(s, params, args)) == s
  {
    NoPercentIsLiteral(s);
    if '%' !in s {
      StripLiteral(s);
    }
  }

  /**
   An exact entry is used as it is: with no `%` in it, whatever count and
   arguments are passed, the translation comes back verbatim.
   */
  lemma TranslateExactEntry(t: Translator, key: string, s: string, args: Args)
    requires t.lang in t.dictionary
    requires key in t.dictionary[t.lang].translations
    requires t.dictionary[t.lang].translations[key] == Single(s)
    requires '%' !in s
    ensures TranslateDefined(t, Plain(key), args)
    ensures Translate(t, Plain(key), args) == s
  {
    LiteralTextSurvives(s, [], args);
  }

  /**
   On a miss, a key ending in a trailing character whose remainder has a
   translation gets that translation with the character put back.
   */
  lemma TranslateTrailingFallback(t: Translator, base: string, c: char, s: string)
    requires t.lang in t.dictionary
    requires c in TrailingChars
    requires base + [c] !in t.dictionary[t.lang].translations
    requires base in t.dictionary[t.lang].translations
    requires t.dictionary[t.lang].translations[base] == Single(s)
    requires '%' !in s + [c]
    ensures TranslateDefined(t, Plain(base + [c]), NoCount)
    ensures Translate(t, Plain(base + [c]), NoCount) == s + [c]
  {
    var key := base + [c];
    assert Init(key) == base && Last(key) == c;
    LiteralTextSurvives(s + [c], [], NoCount);
  }

  /**
   A key with no entry of its own, and no trailing character that finds one,
   is not rewritten: it flows on to substitution and cleanup as it is.
   */
  lemma TranslateUntranslatedKey(t: Translator, msg: Message, args: Args)
    requires SupportedMessage(msg, args)
    requires var c := Normalize(msg, args);
      && c.key !in Translations(t.dictionary, t.lang)
      && (|c.key| == 0 || Last(c.key) !in TrailingChars || Init(c.key) !in Translations(t.dictionary, t.lang))
      && InterpolateDefined(c.key, c.params, args)
    ensures TranslateDefined(t, msg, args)
    ensures Translate(t, msg, args) == StripPlaceholders(Interpolate(Normalize(msg, args).key, Normalize(msg, args).params, args))
  {
  }

  /** When the current language has no dictionary entry, nothing is translated: the key itself is interpolated and cleaned. */
  lemma TranslateMissingLanguage(t: Translator, msg: Message, args: Args)
    requires t.lang !in t.dictionary
    requires TranslateDefined(t, msg, args)
    ensures Translate(t, msg, args) ==
      StripPlaceholders(Interpolate(Normalize(msg, args).key, Normalize(msg, args).params, args))
  {
  }

  /**
   A plural entry gives the form of the count: the first form for counts of
   absolute value at most 1, otherwise the form `IsFormFor` characterises.
   With no `%` in the forms, that form is the result.
   */
  lemma TranslatePluralForm(t: Translator, key: string, forms: seq<string>, n: int, f: nat)
    requires t.lang in t.dictionary
    requires key in t.dictionary[t.lang].translations
    requires t.dictionary[t.lang].translations[key] == Plural(forms)
    requires Abs(n) > 1 ==> IsNumericRule(Rule(t))
    requires Abs(n) <= 1 ==> f == 0
    requires Abs(n) > 1 ==> IsFormFor(Abs(n), Thresholds(Rule(t)), f)
    requires f < |forms| && '%' !in forms[f]
    ensures TranslateDefined(t, Plain(key), Count(n, []))
    ensures Translate(t, Plain(key), Count(n, [])) == forms[f]
  {
    if Abs(n) > 1 {
      FormIsUnique(Abs(n), Thresholds(Rule(t)), f, GetForm(n, Rule(t)));
    }
    LiteralTextSurvives(forms[f], [], Count(n, []));
  }

  /**
   Without an explicit count the second pass never runs, even when the count
   comes from the message's first parameter: at most one substitution pass.
   */
  lemma TranslateWithoutCountSinglePass(t: Translator, msg: Message)
    requires TranslateDefined(t, msg, NoCount)
    ensures var c := Normalize(msg, NoCount);
      Translate(t, msg, NoCount) ==
        StripPlaceholders(FirstPass(Choose(t, Lookup(t.dictionary, t.lang, c.key), c.count), c.params))
  {
  }

  /** An explicit count is never replaced by a numeric first parameter, and a falsy one runs no second pass. */
  lemma ExplicitCountWins(msg: Message, n: int, rest: seq<Param>)
    requires SupportedMessage(msg, Count(n, rest))
    ensures Normalize(msg, Count(n, rest)).count == Some(n)
    ensures n == 0 ==> !SecondPass(Count(n, rest))
  {
  }

  /** PHP's `empty()` on a string or NULL. */
  predicate IsPhpEmpty(v: Option<string>) {
    v.None? || v.value == "" || v.value == "0"
  }

  /** Lines 160-165: an empty value (NULL, "" or "0") leaves the language; any other is stored without checking the dictionary. */
  function SetLang(t: Translator, v: Option<string>): (t': Translator)
    ensures t'.dictionary == t.dictionary
    ensures IsPhpEmpty(v) ==> t' == t
    ensures !IsPhpEmpty(v) ==> t'.lang == v.value
  {
    if IsPhpEmpty(v) then t else t.(lang := v.value)
  }

  function GetLang(t: Translator): string {
    t.lang
  }

  /** After a non-empty `setLang`, `getLang` returns exactly that code, whether or not the dictionary knows it. */
  lemma SetThenGetLang(t: Translator, code: string)
    requires code != "" && code != "0"
    ensures GetLang(SetLang(t, Some(code))) == code
    ensures SetLang(t, Some(code)).dictionary == t.dictionary
  {
  }

  /** The last non-empty `setLang` wins; an empty one in between changes nothing. */
  lemma SetLangLastWins(t: Translator, v: Option<string>, w: Option<string>)
    ensures !IsPhpEmpty(w) ==> SetLang(SetLang(t, v), w) == SetLang(t, w)
    ensures IsPhpEmpty(w) ==> SetLang(SetLang(t, v), w) == SetLang(t, v)
    ensures SetLang(SetLang(t, v), v) == SetLang(t, v)
  {
  }

  /** Lines 91-99: every language code of the dictionary, mapped to the language's display name. */
  method SupportedLanguages(t: Translator) returns (languages: map<string, string>)
    ensures languages.Keys == t.dictionary.Keys
    ensures forall code :: code in languages ==> languages[code] == t.dictionary[code].name
  {
    languages := map[];
    var todo := t.dictionary.Keys;
    while todo != {}
      invariant todo <= t.dictionary.Keys
      invariant languages.Keys == t.dictionary.Keys - todo
      invariant forall code :: code in languages ==> languages[code] == t.dictionary[code].name
      decreases |todo|
    {
      var code :| code in todo;
      languages := languages[code := t.dictionary[code].name];
      todo := todo - {code};
    }
  }
}

=== FILE: translator_examples.dfy ===
/**
 Worked calls of `translate` on a small Czech dictionary. Each is stated for
 any translator whose current language holds the entries the call meets, and
 `Cs` is one such translator.
 */
module TranslatorExamples {
  import opened Wrappers
  import opened PhpStrings
  import opened Sprintf
  import opened Plural
  import opened Dictionary
  import opened Translator

  const Apples: seq<string> := ["%s jablko", "%s jablka", "%s jablek"]

  /** Czech: "Hello" is "Ahoj"; apples take one form for 1, another from 2 and a third from 5. */
  function Czech(): Language {
    Language("Čeština", map["Hello" := Single("Ahoj"), "apple" := Plural(Apples)], "2|5")
  }

  function Cs(): Translator {
    Translator("cs", map["cs" := Czech()])
  }

  /** The current language translates "apple" with the three Czech forms under the rule "2|5". */
  predicate HasApples(t: Translator) {
    && t.lang in t.dictionary
    && "apple" in t.dictionary[t.lang].translations
    && t.dictionary[t.lang].translations["apple"] == Plural(Apples)
    && t.dictionary[t.lang].pluralForm == "2|5"
  }

  /** The current language translates "Hello" as "Ahoj" and has no entry for "Hello!". */
  predicate HasHello(t: Translator) {
    && t.lang in t.dictionary
    && "Hello" in t.dictionary[t.lang].translations
    && t.dictionary[t.lang].translations["Hello"] == Single("Ahoj")
    && "Hello!" !in t.dictionary[t.lang].translations
  }

  lemma CsHasEntries()
    ensures HasApples(Cs()) && HasHello(Cs())
    ensures "Value: %s" !in Translations(Cs().dictionary, Cs().lang)
    ensures "Hi %s" !in Translations(Cs().dictionary, Cs().lang)
  {
  }

  /** A missing key keeps its text, and its unfilled trailing `%s` is removed. */
  lemma UnfilledPlaceholderIsStripped(t: Translator, before: string)
    requires '%' !in before
    requires before + "%s" !in Translations(t.dictionary, t.lang)
    ensures TranslateDefined(t, Plain(before + "%s"), NoCount)
    ensures Translate(t, Plain(before + "%s"), NoCount) == before
  {
    var key := before + "%s";
    assert Last(key) == 's';
    TranslateUntranslatedKey(t, Plain(key), NoCount);
    StripTrailingPlaceholder(before);
  }

  /** An array message fills its placeholder from its own (non-numeric) parameter. */
  lemma ParameterIsSubstituted(t: Translator, p: Param)
    requires "Hi %s" !in Translations(t.dictionary, t.lang)
    requires p.StrP? && !IsLooseNumeric(p.s) && '%' !in p.s
    ensures TranslateDefined(t, Array([StrP("Hi %s"), p]), NoCount)
    ensures Translate(t, Array([StrP("Hi %s"), p]), NoCount) == "Hi " + p.s
  {
    var msg := Array([StrP("Hi %s"), p]);
    assert Normalize(msg, NoCount) == Call("Hi %s", [p], None);
    HiKey();
    FillHole("Hi ", p);
    StripLiteral("Hi " + p.s);
    TranslateUntranslatedKey(t, msg, NoCount);
  }

  /** "Bob" is not numeric, so the message ["Hi %s", "Bob"] becomes "Hi Bob". */
  lemma HelloBob(t: Translator)
    requires "Hi %s" !in Translations(t.dictionary, t.lang)
    ensures TranslateDefined(t, Array([StrP("Hi %s"), StrP("Bob")]), NoCount)
    ensures Translate(t, Array([StrP("Hi %s"), StrP("Bob")]), NoCount) == "Hi Bob"
  {
    BobIsAName();
    ParameterIsSubstituted(t, StrP("Bob"));
  }

  lemma BobIsAName()
    ensures !IsLooseNumeric("Bob") && '%' !in "Bob" && "Hi " + "Bob" == "Hi Bob"
  {
    NotNumeric("Bob");
  }

  /** The key "Hello!" has no entry; "Hello" has, so the result is its translation with "!" put back. */
  lemma TrailingPunctuationIsKept(t: Translator)
    requires HasHello(t)
    ensures TranslateDefined(t, Plain("Hello!"), NoCount)
    ensures Translate(t, Plain("Hello!"), NoCount) == "Ahoj!"
  {
    assert "Hello" + ['!'] == "Hello!";
    assert "Ahoj" + ['!'] == "Ahoj!";
    TranslateTrailingFallback(t, "Hello", '!', "Ahoj");
  }

  /** A count from 2 to 4 selects the second form, and the second pass writes the count into it. */
  lemma CountSelectsAndFillsForm(t: Translator, n: int)
    requires HasApples(t) && 2 <= Abs(n) < 5
    ensures TranslateDefined(t, Plain("apple"), Count(n, []))
    ensures Translate(t, Plain("apple"), Count(n, [])) == IntToString(n) + " jablka"
  {
    AppleOfFew(t, n);
    FillLeading(" jablka", IntP(n));
    assert "%s" + " jablka" == Apples[1];
    assert ArgList(Count(n, [])) == [IntP(n)];
    StripLiteral(IntToString(n) + " jablka");
    Stages(t, Plain("apple"), Count(n, []), Call("apple", [], Some(n)), Plural(Apples), Apples[1], IntToString(n) + " jablka");
  }

  /** The same count taken from the message's own parameter fills the form in the first pass instead. */
  lemma ParameterCountSelectsForm(t: Translator, n: int)
    requires HasApples(t) && 2 <= Abs(n) < 5
    ensures TranslateDefined(t, Array([StrP("apple"), IntP(n)]), NoCount)
    ensures Translate(t, Array([StrP("apple"), IntP(n)]), NoCount) == IntToString(n) + " jablka"
  {
    var msg := Array([StrP("apple"), IntP(n)]);
    AppleWithCount(n);
    AppleOfFew(t, n);
    FillLeading(" jablka", IntP(n));
    assert "%s" + " jablka" == Apples[1];
    StripLiteral(IntToString(n) + " jablka");
    Stages(t, msg, NoCount, Call("apple", [IntP(n)], Some(n)), Plural(Apples), Apples[1], IntToString(n) + " jablka");
  }

  /** Both passes run when a message parameter and a truthy count are given: the second fills what the first wrote. */
  lemma BothPassesLayer(t: Translator, n: int)
    requires "Hi %s" !in Translations(t.dictionary, t.lang) && n != 0
    ensures TranslateDefined(t, Array([StrP("Hi %s"), StrP("%s")]), Count(n, []))
    ensures Translate(t, Array([StrP("Hi %s"), StrP("%s")]), Count(n, [])) == "Hi " + IntToString(n)
  {
    var msg := Array([StrP("Hi %s"), StrP("%s")]);
    var args := Count(n, []);
    assert Normalize(msg, args) == Call("Hi %s", [StrP("%s")], Some(n));
    HiKey();
    assert Lookup(t.dictionary, t.lang, "Hi %s") == Single("Hi %s");
    FillHole("Hi ", StrP("%s"));
    FillHole("Hi ", IntP(n));
    assert ArgList(args) == [IntP(n)];
    StripLiteral("Hi " + IntToString(n));
    Stages(t, msg, args, Call("Hi %s", [StrP("%s")], Some(n)), Single("Hi %s"), "Hi %s", "Hi " + IntToString(n));
  }

  lemma AppleWithCount(n: int)
    ensures SupportedMessage(Array([StrP("apple"), IntP(n)]), NoCount)
    ensures Normalize(Array([StrP("apple"), IntP(n)]), NoCount) == Call("apple", [IntP(n)], Some(n))
  {
    assert [StrP("apple"), IntP(n)][1..] == [IntP(n)];
  }

  lemma HiKey()
    ensures "Hi " + "%s" == "Hi %s" && Last("Hi %s") !in TrailingChars && '%' !in "Hi "
  {
  }

  lemma AppleOfFew(t: Translator, n: int)
    requires HasApples(t) && 2 <= Abs(n) < 5
    ensures Lookup(t.dictionary, t.lang, "apple") == Plural(Apples)
    ensures ChooseDefined(t, Plural(Apples), Some(n))
    ensures Choose(t, Plural(Apples), Some(n)) == Apples[1]
  {
    FormOfFew(n);
  }

  /** `Translate` assembled from the result of each of its stages. */
  lemma Stages(t: Translator, msg: Message, args: Args, c: Call, v: Value, chosen: string, filled: string)
    requires SupportedMessage(msg, args) && Normalize(msg, args) == c
    requires Lookup(t.dictionary, t.lang, c.key) == v
    requires ChooseDefined(t, v, c.count) && Choose(t, v, c.count) == chosen
    requires InterpolateDefined(chosen, c.params, args) && Interpolate(chosen, c.params, args) == filled
    ensures TranslateDefined(t, msg, args)
    ensures Translate(t, msg, args) == StripPlaceholders(filled)
  {
  }

  /** A trailing `%s` after literal text is stripped. */
  lemma StripTrailingPlaceholder(before: string)
    requires '%' !in before
    ensures StripPlaceholders(before + "%s") == before
  {
    if |before| > 0 {
      assert before[|before| - 1] in before;
    }
    StripConcat(before, "%s");
    StripStep("%s");
    assert "%s"[2..] == "";
    StripLiteral(before);
  }

  /** The rule "2|5" has the thresholds 2 and 5. */
  lemma CzechThresholds()
    ensures IsNumericRule("2|5") && Thresholds("2|5") == [2, 5]
  {
    assert Implode('|', ["2", "5"]) == "2|5";
    ExplodeImplode('|', ["2", "5"]);
  }

  /** With the rule "2|5", counts from 2 to 4 take form 1. */
  lemma FormOfFew(n: int)
    requires 2 <= Abs(n) < 5
    ensures IsNumericRule("2|5") && GetForm(n, "2|5") == 1
  {
    CzechThresholds();
    FormIsUnique(Abs(n), [2, 5], GetForm(n, "2|5"), 1);
  }

  /** A string with no digit is not numeric in any PHP version. */
  lemma NotNumeric(s: string)
    requires forall i :: 0 <= i < |s| ==> !IsDigit(s[i])
    requires |s| > 0 && !IsNumericSpace(s[0]) && !IsNumericSpace(s[|s| - 1]) && s[0] != '+' && s[0] != '-'
    ensures !IsLooseNumeric(s)
  {
    assert TrimLeft(s) == s;
    assert TrimRight(s) == s;
    assert !AllDigits(s) by { assert !IsDigit(s[0]); }
    forall i | 0 <= i < |s| ensures !(AllDigits(s[..i]) && AllDigits(s[i + 1..])) || |s| <= 1 {
      if i > 0 {
        assert s[..i][0] == s[0];
      } else if |s| > 1 {
        assert s[i + 1..][0] == s[1];
      }
    }
    assert !IsMantissa(s);
    forall j | 0 <= j < |s| ensures !IsMantissa(s[..j]) {
      if j > 0 {
        assert s[..j][0] == s[0];
        assert !AllDigits(s[..j]);
        forall i | 0 <= i < |s[..j]| ensures !(AllDigits(s[..j][..i]) && AllDigits(s[..j][i + 1..])) || |s[..j]| <= 1 {
          if i > 0 {
            assert s[..j][..i][0] == s[0];
          } else if j > 1 {
            assert s[..j][i + 1..][0] == s[1];
          }
        }
      }
    }
  }

  /** Filling a leading `%s` followed by literal text. */
  lemma FillLeading(after: string, p: Param)
    requires '%' !in after
    ensures OnlyStringDirectives("%s" + after) && Directives("%s" + after) == 1
    ensures Vsprintf("%s" + after, [p]) == ToPhpString(p) + after
  {
    NoPercentIsLiteral(after);
    var f := "%s" + after;
    assert f[0] == '%' && f[1] == 's' && f[2..] == after;
    VsprintfDirective(f, [p]);
    assert [p][1..] == [];
  }

  /** Filling a trailing `%s` after literal text. */
  lemma FillHole(before: string, p: Param)
    requires '%' !in before
    ensures OnlyStringDirectives(before + "%s") && Directives(before + "%s") == 1
    ensures Vsprintf(before + "%s", [p]) == before + ToPhpString(p)
  {
    NoPercentIsLiteral(before);
    FillLeading("", p);
    assert "%s" + "" == "%s";
    assert ToPhpString(p) + "" == ToPhpString(p);
    VsprintfConcat(before, "%s", [p]);
    assert [p][Directives(before)..] == [p];
  }
}

=== FILE: wrappers.dfy ===
/** The optional value used wherever the translator may hold PHP's NULL. */
module Wrappers {

  datatype Option<+T> = None | Some(value: T)
}
